=== FILE: README.md ===
# Covfefe: grammar diagnostics and the BNF importer, in Dafny

This project models two pure parts of the Covfefe context-free grammar
toolkit and proves properties of them.

- **Grammar diagnostics** (`GrammarCheck.swift`).
  - `unreachableNonTerminals` lists the patterns of the productions that
    `eliminateUnusedProductions` drops.
  - `unterminatedNonTerminals` works on a Chomsky-normal-form grammar. It
    lists the patterns none of whose productions is final, meaning a
    right-hand side made only of terminals.
  - A grammar that is not in CNF is normalised first.
  - The reachability pass, the CNF test and the normaliser are not part of
    the model. They are parameters (`GrammarCheck.ReachableProductions`,
    `isCnf`, `normalize`).
  - `Reachability.ReachableProductions` is a reference reachability
    closure that can stand in for `eliminateUnusedProductions`.
- **BNF importer after parsing** (`BNFImporter.swift`, `Grammar(bnfString:start:)`).
  - The input is the BNF text plus its parse tree, taken after `expression`
    nodes are exploded and whitespace is filtered out. Leaves are index
    ranges into the text.
  - Rule names are read from their `rule-name-char` leaves.
  - String literals are decoded: plain characters, the escapes `\r \n \t \\`,
    and `\u{hex}`, which is read base 16 with Swift's `Int(_:radix:)` rules
    and then checked to be a Unicode scalar value.
  - Each rule's expression is compiled into productions.
  - `EOL -> "\n"` is appended when `EOL` is referenced but never defined.
  - Every `fatalError()`, `assert`, force-unwrap and out-of-range child
    index of the source is an `ImportError` variant instead of a crash.
    Out-of-range text ranges are excluded by a precondition instead (see
    "Left out").

Modules:
- `Grammars`: symbols, productions, grammars.
- `Fixpoints`: generic least fixpoints of inflationary set functions.
- `GrammarCheck`: the two diagnostics as written.
- `Reachability`: a reference reachability closure.
- `Termination`: a productivity fixpoint and the corrected diagnostic (see Findings).
- `ParseTrees`: trees, leaves, `allNodes(where:)`, text extraction.
- `HexNumbers`: base-16 parsing.
- `StringLiterals`: literal decoding.
- `ImportErrors`: the failure variants.
- `BnfImporter`: the compiler and EOL completion.
- `BnfShapes`: the tree shapes the BNF grammar of `BNFImporter.swift:31-62`
  produces, a reference reading of what they mean, and the proofs that the
  compiler agrees with that reading and never fails on those shapes.

An unterminated non-terminal is one that derives no string of terminals.
Finding those needs termination to propagate through right-hand sides: a
production counts as final once every non-terminal on it is terminated.
The code tests only one step, `isFinal` on each production.
`GrammarCheck` models that one step as written. `Termination` holds the
fixpoint version, and the gap is recorded under Findings.

## Model

| member | source | states |
|---|---|---|
| `GrammarCheck.UnreachableNonTerminals` | Sources/Covfefe/GrammarCheck.swift:11-15 | n is reported exactly when some production of the grammar with pattern n is not among the reachable productions |
| `GrammarCheck.AllReachableMeansNoneUnreachable` | Sources/Covfefe/GrammarCheck.swift:12-14 | when the reachability pass keeps every production, nothing is reported |
| `GrammarCheck.UnreachableArePatterns` | Sources/Covfefe/GrammarCheck.swift:14 | every reported name is the pattern of some production of the grammar |
| `Reachability.ReachableNonTerminals` | Sources/Covfefe/GrammarCheck.swift:13 | the start symbol is reachable, the set is closed under "occurs on a reachable right-hand side", and it holds nothing besides the start and referenced names |
| `Reachability.ReachableIsLeast` | Sources/Covfefe/GrammarCheck.swift:13 | the reachable set is contained in every set that holds the start and is closed under right-hand sides |
| `Reachability.ReachableProductions` | Sources/Covfefe/GrammarCheck.swift:13 | keeps exactly the productions whose pattern is reachable from the start symbol |
| `Reachability.UnreachableMeansDefinedButUnreached` | Sources/Covfefe/GrammarCheck.swift:11-15 | with the reference pass, n is reported iff n has a production and is not reachable from the start symbol |
| `Reachability.UnusedProductionIsUnreachable` | Sources/Covfefe/GrammarCheck.swift:11-15 | for S -> x and U -> y with start S, exactly U is reported |
| `GrammarCheck.ProductionsOf` | Sources/Covfefe/GrammarCheck.swift:21 | the group of a pattern holds exactly the grammar's productions with that pattern |
| `GrammarCheck.GroupByPattern` | Sources/Covfefe/GrammarCheck.swift:21 | the grouping's keys are exactly the patterns, and each key maps to all productions with that pattern |
| `GrammarCheck.UnterminatedInCnf` | Sources/Covfefe/GrammarCheck.swift:21-24 | n is reported iff n has at least one production and none of n's productions is final |
| `GrammarCheck.UnterminatedNonTerminals` | Sources/Covfefe/GrammarCheck.swift:17-25 | the same characterisation, read off the grammar itself when it is in CNF and off its normalisation otherwise |
| `GrammarCheck.NonCnfDelegates` | Sources/Covfefe/GrammarCheck.swift:18-20 | outside CNF the answer equals the CNF answer for the normalised grammar |
| `GrammarCheck.FinalProductionIsTerminated` | Sources/Covfefe/GrammarCheck.swift:22-23 | a non-terminal with one final production is never reported |
| `GrammarCheck.UndefinedIsNotReported` | Sources/Covfefe/GrammarCheck.swift:21-24 | a name that has no production of its own is never reported |
| `GrammarCheck.SelfLoopIsUnterminated` | Sources/Covfefe/GrammarCheck.swift:21-24 | the one-step CNF branch, applied to the production list A -> A, reports {A}; that grammar is not in CNF, so the full diagnostic would normalise it first |
| `GrammarCheck.TerminalIsTerminated` | Sources/Covfefe/GrammarCheck.swift:21-24 | the grammar A -> "x" reports nothing |
| `Termination.Productive` | Sources/Covfefe/GrammarCheck.swift:17-25 | the productive set holds only defined names and is closed: a production whose right-hand-side names are all productive makes its pattern productive |
| `Termination.ProductiveIsLeast` | Sources/Covfefe/GrammarCheck.swift:17-25 | the productive set is contained in every set closed that way |
| `Termination.UnterminatedNonTerminals` | Sources/Covfefe/GrammarCheck.swift:21-24 | the corrected diagnostic reports only defined names, never one with a final production or with a production over terminated names, and reports a subset of what one-step finality reports; conversely it reports every defined name outside any set closed under completed productions, so it is exactly the defined names that are not productive |
| `Termination.SelfLoopIsUnterminated` | Sources/Covfefe/GrammarCheck.swift:21-24 | the corrected diagnostic still reports A for A -> A |
| `Termination.OneStepReportsProductiveStart` | Sources/Covfefe/GrammarCheck.swift:22-24 | one-step finality reports S for S -> A B, A -> x, B -> y, although S derives xy |
| `Termination.FixpointDoesNotReportProductiveStart` | Sources/Covfefe/GrammarCheck.swift:22-24 | the corrected diagnostic does not report S for that grammar |
| `HexNumbers.ParseHexInt` | Sources/Covfefe/BNFImporter.swift:148 | `Int(_:radix: 16)` only produces values inside the 64-bit integer range |
| `HexNumbers.ScalarDigitsParse` | Sources/Covfefe/BNFImporter.swift:146-148 | one to eight hex digits, the most the BNF grammar admits, always parse to their base-16 value, which is below 2^32, so the force-unwrap cannot fail |
| `HexNumbers.ToHex` | Sources/Covfefe/BNFImporter.swift:146-148 | a number's hex rendering is a non-empty digit string that reads back base 16 as the same number |
| `StringLiterals.UnicodeScalar` | Sources/Covfefe/BNFImporter.swift:149-152 | a value gives a character iff it is not a surrogate and is at most 0x10FFFF, and the character has that code point |
| `StringLiterals.ScalarNodeDigits` | Sources/Covfefe/BNFImporter.swift:146 | for the `unicode-scalar` node the grammar builds for `\u{` + n digits + `}` at the start of a text, dropping the first three children and the last one leaves exactly the n digits between the braces |
| `StringLiterals.DecodeScalar` | Sources/Covfefe/BNFImporter.swift:145-152 | a decoded `\u{...}` is one character with a scalar code point; it fails only with the digit text that `Int(_:radix:)` rejects or with a value that is not a scalar (the exact value on 1–8 digits is `ScalarEscapeDecodes`) |
| `StringLiterals.CharacterExpression` | Sources/Covfefe/BNFImporter.swift:129-173 | a decoded escape is one character long, and an invalid-scalar error carries a value that is not a scalar |
| `StringLiterals.PlainTextDecodes` | Sources/Covfefe/BNFImporter.swift:134-135 | a string of plain character leaves over `[lo, hi)` decodes to exactly that slice of the text |
| `StringLiterals.EscapeRoundTrip` | Sources/Covfefe/BNFImporter.swift:154-164 | every character, written as its BNF escape (`\r`, `\n`, `\t`, `\\`, or `\u{hex}` for any other), decodes back to itself |
| `StringLiterals.ScalarEscapeRoundTrip` | Sources/Covfefe/BNFImporter.swift:145-152 | any character other than `\r`, `\n`, tab and backslash, written as `\u{hex}` of its code point, decodes back to that character |
| `StringLiterals.ScalarEscapeDecodes` | Sources/Covfefe/BNFImporter.swift:145-152 | one to eight hex digits decode to the one-character string when the value is a scalar, and to `invalidUnicodeScalar(value)` otherwise |
| `StringLiterals.StringExpression` | Sources/Covfefe/BNFImporter.swift:175-182 | decoding with a known suffix k equals the reference decoding (prefix first, then the last character) followed by k, and fails exactly when the reference decoding fails, with the same error |
| `StringLiterals.Literal` | Sources/Covfefe/BNFImporter.swift:184-190 | a three-child literal decodes to its middle child's string, so the quotes never appear; any other shape is a tree-shape error |
| `StringLiterals.WellFormedCharacterDecodes` | Sources/Covfefe/BNFImporter.swift:129-173 | a character node of the grammar's shape decodes, or fails only with a non-scalar value below 2^32 |
| `StringLiterals.WellFormedStringDecodes` | Sources/Covfefe/BNFImporter.swift:175-182 | a string node of the grammar's shape decodes, or fails only with a non-scalar value below 2^32 |
| `BnfImporter.RuleName` | Sources/Covfefe/BNFImporter.swift:120-127 | the name is as long as the `rule-name-char` leaves it is read from are wide together; its content is pinned by `RuleNameRoundTrip` |
| `BnfImporter.RuleNameRoundTrip` | Sources/Covfefe/BNFImporter.swift:120-127 | for the container the grammar builds for `<name>`, the name `ruleName(from:)` reads is exactly the text between the brackets |
| `BnfImporter.MakeProductions` | Sources/Covfefe/BNFImporter.swift:192-240 | every production built for a rule has the rule's name as its pattern |
| `BnfImporter.RuleProductions` | Sources/Covfefe/BNFImporter.swift:242-248 | a rule node without exactly three children contributes nothing; otherwise the rule contributes exactly the productions built from its third child under the name read from its first child, every one carrying that name |
| `BnfImporter.CompileRules` | Sources/Covfefe/BNFImporter.swift:242-248 | every compiled production's pattern is the name of one of the document's rules; on success every rule compiled and every production of every rule is in the result; on failure the error is that of a rule all of whose predecessors compiled (the first failure wins) |
| `BnfImporter.CompleteEol` | Sources/Covfefe/BNFImporter.swift:250-258 | the list grows by exactly one production, `EOL -> "\n"` at the end, iff EOL is referenced and not defined; otherwise it is unchanged; afterwards EOL is never referenced without being defined |
| `BnfImporter.CompleteEolIdempotent` | Sources/Covfefe/BNFImporter.swift:250-258 | completing an already completed list changes nothing |
| `BnfImporter.ImportGrammar` | Sources/Covfefe/BNFImporter.swift:118-258 | the import succeeds exactly when the document's rules compile, its productions are then those rules' productions with the EOL completion, and a failure carries the rules' error; the grammar keeps the requested start symbol, each production belongs to a declared rule or is the EOL completion, and EOL is never left dangling |
| `BnfShapes.AlternativeProductions` | Sources/Covfefe/BNFImporter.swift:200-201 | the reference reading yields one production per alternative |
| `BnfShapes.AlternativeProductionsInOrder` | Sources/Covfefe/BNFImporter.swift:200-201 | production i belongs to alternative i, so order is kept, and lists that alternative's symbols |
| `BnfShapes.ElementCompiles` | Sources/Covfefe/BNFImporter.swift:216-235 | an element gives one production: one non-terminal for a rule name, one terminal for a non-empty literal, an empty right-hand side for an empty literal |
| `BnfShapes.ConcatenationCompiles` | Sources/Covfefe/BNFImporter.swift:203-214 | a concatenation gives exactly one production, whose right-hand side joins its elements' symbols left to right |
| `BnfShapes.ExpressionCompiles` | Sources/Covfefe/BNFImporter.swift:199-214 | an expression compiles to the reference reading: its alternatives' productions in order |
| `BnfShapes.ElementFailsOnlyOnScalars` | Sources/Covfefe/BNFImporter.swift:216-235 | an element of the grammar's shape can only fail on an invalid Unicode scalar |
| `BnfShapes.SequenceFailsOnlyOnScalars` | Sources/Covfefe/BNFImporter.swift:203-214 | a sequence of such elements can only fail on an invalid Unicode scalar |
| `BnfShapes.AlternativesFailOnlyOnScalars` | Sources/Covfefe/BNFImporter.swift:200-201 | a sequence of such alternatives can only fail on an invalid Unicode scalar |
| `BnfShapes.ExpressionNeverMalformed` | Sources/Covfefe/BNFImporter.swift:192-240 | on an expression of the grammar's shape, no `fatalError`, failed assertion or bad index is reachable, and success gives one production per alternative |
| `BnfShapes.DocumentCompiles` | Sources/Covfefe/BNFImporter.swift:242-248 | on well-formed rules the per-rule `flatMap` equals the reference reading of the document: each rule's alternatives under its name, rule after rule, the first failing rule deciding the error |
| `BnfShapes.ImportReading` | Sources/Covfefe/BNFImporter.swift:118-258 | importing a well-formed document yields the reference reading of its rules completed with the EOL rule, under the requested start symbol, or that reading's error |
| `BnfShapes.RulesNeverMalformed` | Sources/Covfefe/BNFImporter.swift:242-248 | when all rules have the grammar's shape, the per-rule `flatMap` can only fail on an invalid Unicode scalar |
| `BnfShapes.ImportNeverMalformed` | Sources/Covfefe/BNFImporter.swift:118-258 | a document whose rules all have the grammar's shape either imports or fails with `invalidUnicodeScalar` |

## Left out

- Earley parsing, tokenising, `explode` and `filter` (`BNFImporter.swift:109-116`) are not part of this model. Their source is not available. The model starts from the filtered parse tree and the text.
- The constant `bnfGrammar` (`BNFImporter.swift:29-92`) is not modelled as data. It only shapes the predicates in `BnfShapes`. Its regular-expression terminals (`rt(...)`) are opaque library calls. The shapes assume that each `digit` leaf of a `\u{...}` escape is one hex digit, which is what `rt("[0-9a-fA-F]")` matches. They restrict no other leaf: the characters of rule names and plain string characters are not constrained.
- `eliminateUnusedProductions`, `isInChomskyNormalForm` and `chomskyNormalized()` are not part of this model. They are function parameters of the diagnostics.
- GrammarCheck.UnterminatedNonTerminals assumes that one normalisation reaches CNF, as `chomskyNormalized()` is meant to: it requires that the grammar or its normalisation is in CNF. A grammar that needs two or more normalisations is not covered, although the Swift recursion would still end for it.
- Both diagnostics are computed properties of an immutable value. Leaving the grammar unchanged holds by construction of pure functions, so no contract states it.
- `allNodes(where:)`, `leafs`, `isFinal` and `generatedNonTerminals` come from files outside this model. `ParseTrees.AllNodes` assumes a pre-order walk that visits a node before its children and also descends into matching nodes.
- Swift `String.Index` ranges are `Span(lo, hi)` indices into a `seq<char>`. Every function over a tree requires the tree's leaves to lie inside the text (`InBounds`). An out-of-range leaf would trap in Swift, and the parser never produces one.
- BnfImporter.MakeProductions: the two count assertions of a concatenation (`BNFImporter.swift:207-208`) become the error `ProductionCountMismatch`. A debug build stops there, while a release build skips `assert` and indexes `[0]`. On well-formed trees these assertions never fail (`BnfShapes.ConcatenationCompiles`).
- Names and literals are compared scalar by scalar. Swift's `String` equality and hashing work up to canonical equivalence, so two non-terminal names that differ only in Unicode normalisation (`"\u{e9}"` and `"e\u{301}"`) form one key of `Dictionary(grouping:by:)` and one `Set` element in `GrammarCheck.swift:12-24`, where the model keeps them apart. Rule names read by the BNF importer are ASCII, since the grammar's `rule-name-char` terminal admits only ASCII letters, digits, `-` and `_`, so their grouping is not affected; terminal literals can still hold non-ASCII text.
- Crashes are not told apart: a `fatalError()`, a failed force-unwrap and a trapping index all become `ImportError` values. The variant names the failing shape, not the kind of trap.

## Findings

| source | as written | input that shows it | evidently intended | confidence | as-written member | corrected member |
|---|---|---|---|---|---|---|
| Sources/Covfefe/GrammarCheck.swift:22-24 | a CNF non-terminal is reported as unterminated when none of its own productions is final, which is a one-step test | the CNF grammar S -> A B, A -> "x", B -> "y" reports S, although S derives "xy" | report the non-terminals that derive no terminal string: the complement of the least productive fixpoint | medium; not executed | `Termination.OneStepReportsProductiveStart` | `Termination.UnterminatedNonTerminals` |

=== FILE: bnf_importer.dfy ===
/** The BNF importer after parsing: the filtered parse tree of a BNF text
    is compiled into productions, one per alternative of each rule, and a
    referenced but undefined `EOL` is completed with `EOL -> "\n"`. */
module BnfImporter {
  import opened Results
  import opened Grammars
  import opened ParseTrees
  import opened ImportErrors
  import opened StringLiterals

  /** `ruleName(from:)`: the text of every `rule-name-char` leaf, in order. */
  function RuleName(input: string, container: ParseTree): (r: string)
    requires InBounds(container, |input|)
    ensures |r| == Width(LeafsOf(AllNodes(container, "rule-name-char")))
  {
    var chars := AllNodes(container, "rule-name-char");
    AllNodesAreMatchingNodes(container, "rule-name-char", |input|);
    LeafsOfWithin(chars, |input|);
    Text(input, LeafsOf(chars))
  }

  /** The `rule-name-container` the BNF grammar builds for `<name>`, where
      the name occupies `[lo, hi)` and `open`, `close` are the brackets. */
  function NameContainer(open: Span, lo: nat, hi: nat, close: Span): ParseTree
    requires lo <= hi
  {
    Node("rule-name-container", [Leaf(open), CharChain("rule-name", "rule-name-char", lo, hi), Leaf(close)])
  }

  /** The rule name read back from a container is exactly the text between
      the brackets. */
  lemma RuleNameRoundTrip(input: string, open: Span, lo: nat, hi: nat, close: Span)
    requires lo <= hi <= |input| && SpanWithin(open, |input|) && SpanWithin(close, |input|)
    ensures InBounds(NameContainer(open, lo, hi, close), |input|)
    ensures RuleName(input, NameContainer(open, lo, hi, close)) == input[lo..hi]
  {
    var chain := CharChain("rule-name", "rule-name-char", lo, hi);
    var cs := [Leaf(open), chain, Leaf(close)];
    CharChainInBounds("rule-name", "rule-name-char", lo, hi, |input|);
    CharChainNodes("rule-name", "rule-name-char", lo, hi);
    CharNodesLeafs("rule-name-char", lo, hi);
    UnitSpansText(input, lo, hi);
    assert cs[1..] == [chain, Leaf(close)];
    assert cs[1..][1..] == [Leaf(close)];
    assert AllNodesOf([Leaf(close)], "rule-name-char") == [];
    assert AllNodesOf(cs[1..], "rule-name-char") == AllNodes(chain, "rule-name-char") + [];
    assert AllNodesOf(cs, "rule-name-char") == [] + AllNodesOf(cs[1..], "rule-name-char");
    var chars := AllNodes(NameContainer(open, lo, hi, close), "rule-name-char");
    assert chars == [] + AllNodesOf(cs, "rule-name-char");
    assert chars == CharNodes("rule-name-char", lo, hi);
    assert LeafsOf(chars) == UnitSpans(lo, hi);
  }

  /** `makeProductions(from:named:)`: compiles an `alternation`,
      `concatenation` or `expression-element` node into productions of
      `name`. Failures of the tree shape are errors, in the order the code
      would meet them. */
  function MakeProductions(input: string, t: ParseTree, name: NonTerminal): (r: Result<seq<Production>, ImportError>)
    requires InBounds(t, |input|)
    ensures r.Ok? ==> forall i :: 0 <= i < |r.value| ==> r.value[i].pattern == name
    decreases t
  {
    match t
    case Leaf(_) => Ok([])
    case Node(k, cs) =>
      assert AllInBounds(cs, |input|);
      if k == "alternation" then
        if |cs| == 0 then Err(UnexpectedChildCount(0))
        else
          var left :- MakeProductions(input, cs[0], name);
          if |cs| < 3 then Err(UnexpectedChildCount(|cs|))
          else
            var right :- MakeProductions(input, cs[2], name);
            Ok(left + right)
      else if k == "concatenation" then
        if |cs| == 2 then
          var left :- MakeProductions(input, cs[0], name);
          var right :- MakeProductions(input, cs[1], name);
          if |left| != 1 then Err(ProductionCountMismatch(|left|))
          else if |right| != 1 then Err(ProductionCountMismatch(|right|))
          else Ok([Production(name, left[0].rhs + right[0].rhs)])
        else if |cs| == 1 then MakeProductions(input, cs[0], name)
        else Err(UnexpectedChildCount(|cs|))
      else if k == "expression-element" then
        if |cs| != 1 then Ok([])
        else
          match cs[0]
          case Leaf(_) => Err(UnexpectedLeaf)
          case Node(ek, _) =>
            if ek == "literal" then
              var value :- Literal(input, cs[0]);
              Ok([Production(name, if |value| == 0 then [] else [T(value)])])
            else if ek == "rule-name-container" then
              Ok([Production(name, [NT(RuleName(input, cs[0]))])])
            else Err(UnexpectedNode(ek))
      else Err(UnexpectedNode(k))
  }

  /** The productions of one `rule` node: its children are the rule-name
      container, the `::=` operator and the expression. */
  function RuleProductions(input: string, rule: ParseTree): (r: Result<seq<Production>, ImportError>)
    requires InBounds(rule, |input|)
    ensures !(rule.Node? && |rule.children| == 3) ==> r == Ok([])
    ensures rule.Node? && |rule.children| == 3 ==>
      assert InBounds(rule.children[0], |input|) && InBounds(rule.children[2], |input|);
      r == MakeProductions(input, rule.children[2], RuleName(input, rule.children[0]))
    ensures r.Ok? && rule.Node? && |rule.children| == 3 ==>
      forall i :: 0 <= i < |r.value| ==> r.value[i].pattern == RuleName(input, rule.children[0])
  {
    if rule.Node? && |rule.children| == 3 then
      assert InBounds(rule.children[0], |input|) && InBounds(rule.children[2], |input|);
      MakeProductions(input, rule.children[2], RuleName(input, rule.children[0]))
    else Ok([])
  }

  /** The names declared by the `rule` nodes that have three children. */
  function DeclaredNames(input: string, rules: seq<ParseTree>): set<NonTerminal> {
    set i | 0 <= i < |rules| && IsRuleWithName(input, rules[i]) :: RuleName(input, rules[i].children[0])
  }

  /** A `rule` node the importer takes a name from. */
  predicate IsRuleWithName(input: string, rule: ParseTree) {
    rule.Node? && |rule.children| == 3 && InBounds(rule.children[0], |input|)
  }

  /** The per-rule `flatMap`: rule by rule, the first failure wins. */
  function CompileRules(input: string, rules: seq<ParseTree>): (r: Result<seq<Production>, ImportError>)
    requires AllInBounds(rules, |input|)
    ensures r.Ok? ==> forall p :: p in r.value ==> p.pattern in DeclaredNames(input, rules)
    ensures r.Ok? ==> forall i :: 0 <= i < |rules| ==>
      RuleProductions(input, rules[i]).Ok? &&
      forall p :: p in RuleProductions(input, rules[i]).value ==> p in r.value
    ensures r.Err? ==>
      exists i :: 0 <= i < |rules| && RuleProductions(input, rules[i]) == Err(r.error) &&
                  forall j :: 0 <= j < i ==> RuleProductions(input, rules[j]).Ok?
    decreases |rules|
  {
    if |rules| == 0 then Ok([])
    else
      assert InBounds(rules[0], |input|) && AllInBounds(rules[1..], |input|);
      var first := RuleProductions(input, rules[0]);
      if first.Err? then Err(first.error)
      else
        var rest := CompileRules(input, rules[1..]);
        if rest.Err? then
          assert exists i :: 0 <= i < |rules| && RuleProductions(input, rules[i]) == Err(rest.error) &&
                             forall j :: 0 <= j < i ==> RuleProductions(input, rules[j]).Ok? by {
            var k :| 0 <= k < |rules[1..]| && RuleProductions(input, rules[1..][k]) == Err(rest.error) &&
                     forall j :: 0 <= j < k ==> RuleProductions(input, rules[1..][j]).Ok?;
            assert rules[1..][k] == rules[k + 1];
            forall j | 0 <= j < k + 1
              ensures RuleProductions(input, rules[j]).Ok?
            {
              if j > 0 {
                assert rules[j] == rules[1..][j - 1];
              }
            }
          }
          Err(rest.error)
        else
          DeclaredNamesCons(input, rules);
          var all := first.value + rest.value;
          assert forall i :: 0 <= i < |rules| ==>
            RuleProductions(input, rules[i]).Ok? &&
            forall p :: p in RuleProductions(input, rules[i]).value ==> p in all by {
            forall i | 0 <= i < |rules|
              ensures RuleProductions(input, rules[i]).Ok?
              ensures forall p :: p in RuleProductions(input, rules[i]).value ==> p in all
            {
              if i > 0 {
                assert rules[i] == rules[1..][i - 1];
              }
            }
          }
          Ok(all)
  }

  lemma DeclaredNamesCons(input: string, rules: seq<ParseTree>)
    requires |rules| > 0 && AllInBounds(rules, |input|)
    ensures DeclaredNames(input, rules[1..]) <= DeclaredNames(input, rules)
    ensures rules[0].Node? && |rules[0].children| == 3 ==>
      assert InBounds(rules[0], |input|);
      RuleName(input, rules[0].children[0]) in DeclaredNames(input, rules)
  {
    forall n | n in DeclaredNames(input, rules[1..])
      ensures n in DeclaredNames(input, rules)
    {
      var i :| 0 <= i < |rules[1..]| && IsRuleWithName(input, rules[1..][i]) &&
               n == RuleName(input, rules[1..][i].children[0]);
      assert rules[1..][i] == rules[i + 1];
    }
    if rules[0].Node? && |rules[0].children| == 3 {
      assert InBounds(rules[0], |input|);
      assert IsRuleWithName(input, rules[0]);
    }
  }

  /** The non-terminal the importer completes when it is left undefined. */
  const EolName: NonTerminal := "EOL"
  const EolProduction: Production := Production(EolName, [T("\n")])

  predicate ReferencesEol(prods: seq<Production>) {
    exists p :: p in prods && EolName in GeneratedNonTerminals(p)
  }

  predicate DefinesEol(prods: seq<Production>) {
    exists p :: p in prods && p.pattern == EolName
  }

  /** Appends `EOL -> "\n"` when `EOL` is used but has no production. */
  function CompleteEol(prods: seq<Production>): (r: seq<Production>)
    ensures prods <= r && |r| <= |prods| + 1
    ensures |r| == |prods| + 1 ==> r[|prods|] == EolProduction
    ensures |r| == |prods| + 1 <==> ReferencesEol(prods) && !DefinesEol(prods)
    ensures ReferencesEol(r) ==> DefinesEol(r)
  {
    if ReferencesEol(prods) && !DefinesEol(prods) then
      var r := prods + [EolProduction];
      assert r[|prods|] in r;
      r
    else prods
  }

  /** Completing twice adds nothing more than completing once. */
  lemma CompleteEolIdempotent(prods: seq<Production>)
    ensures CompleteEol(CompleteEol(prods)) == CompleteEol(prods)
  {
  }

  /** `Grammar(bnfString:start:)` from the filtered parse tree onwards. */
  function ImportGrammar(input: string, tree: ParseTree, start: NonTerminal): (r: Result<Grammar, ImportError>)
    requires InBounds(tree, |input|)
    ensures AllInBounds(AllNodes(tree, "rule"), |input|)
    ensures r.Ok? <==> CompileRules(input, AllNodes(tree, "rule")).Ok?
    ensures r.Ok? ==> r.value.productions == CompleteEol(CompileRules(input, AllNodes(tree, "rule")).value)
    ensures r.Err? ==> r.error == CompileRules(input, AllNodes(tree, "rule")).error
    ensures r.Ok? ==> r.value.start == start
    ensures r.Ok? ==> forall p :: p in r.value.productions ==>
      p.pattern in DeclaredNames(input, AllNodes(tree, "rule")) || p == EolProduction
    ensures r.Ok? ==> (ReferencesEol(r.value.productions) ==> DefinesEol(r.value.productions))
  {
    var rules := AllNodes(tree, "rule");
    AllNodesAreMatchingNodes(tree, "rule", |input|);
    var prods :- CompileRules(input, rules);
    var completed := CompleteEol(prods);
    assert forall p :: p in completed ==> p in prods || p == EolProduction by {
      forall p | p in completed
        ensures p in prods || p == EolProduction
      {
        var i :| 0 <= i < |completed| && completed[i] == p;
        if i < |prods| {
          assert prods[i] == p;
        }
      }
    }
    Ok(Grammar(completed, start))
  }
}

=== FILE: bnf_shapes.dfy ===
/** The tree shapes the BNF grammar produces once `expression` nodes are
    exploded and whitespace is filtered out, and what such a tree means:
    a rule's expression stands for one production per `|`-separated
    alternative, whose right-hand side lists the alternative's elements
    in order. `MakeProductions` is proved to compute exactly that, and
    never to reach a tree-shape failure on these shapes. */
module BnfShapes {
  import opened Results
  import opened Grammars
  import opened ParseTrees
  import opened ImportErrors
  import opened StringLiterals
  import opened BnfImporter

  /** `expression-element -> literal | rule-name-container`, a literal being
      two quotes around a well-formed string. */
  predicate WellFormedElement(input: string, t: ParseTree)
    requires InBounds(t, |input|)
  {
    t.Node? && t.key == "expression-element" && |t.children| == 1 && t.children[0].Node? &&
    var x := t.children[0];
    assert InBounds(x, |input|);
    (x.key == "rule-name-container" ||
     (x.key == "literal" && |x.children| == 3 &&
      assert InBounds(x.children[1], |input|);
      WellFormedString(input, x.children[1])))
  }

  /** `concatenation -> expression-element | concatenation expression-element`. */
  predicate WellFormedConcatenation(input: string, t: ParseTree)
    requires InBounds(t, |input|)
    decreases t
  {
    t.Node? && t.key == "concatenation" &&
    assert AllInBounds(t.children, |input|);
    ((|t.children| == 1 && WellFormedElement(input, t.children[0])) ||
     (|t.children| == 2 && WellFormedConcatenation(input, t.children[0]) && WellFormedElement(input, t.children[1])))
  }

  /** `expression -> concatenation | alternation` with `expression` exploded,
      where `alternation -> expression "|" concatenation`. */
  predicate WellFormedExpression(input: string, t: ParseTree)
    requires InBounds(t, |input|)
    decreases t
  {
    WellFormedConcatenation(input, t) ||
    (t.Node? && t.key == "alternation" && |t.children| == 3 &&
     assert AllInBounds(t.children, |input|);
     WellFormedExpression(input, t.children[0]) && WellFormedConcatenation(input, t.children[2]))
  }

  /** `rule -> rule-name-container "::=" expression` with whitespace filtered. */
  predicate WellFormedRule(input: string, rule: ParseTree)
    requires InBounds(rule, |input|)
  {
    rule.Node? && |rule.children| == 3 &&
    assert InBounds(rule.children[2], |input|);
    WellFormedExpression(input, rule.children[2])
  }

  /** Every rule of the list is well formed. */
  predicate WellFormedRules(input: string, rules: seq<ParseTree>) {
    forall i :: 0 <= i < |rules| ==> InBounds(rules[i], |input|) && WellFormedRule(input, rules[i])
  }

  /** Every `rule` node of the document is well formed. */
  predicate WellFormedSyntax(input: string, tree: ParseTree) {
    WellFormedRules(input, AllNodes(tree, "rule"))
  }

  /** The alternatives of an expression, left to right. */
  function Alternatives(t: ParseTree): seq<ParseTree>
    decreases t
  {
    if t.Node? && t.key == "alternation" && |t.children| == 3
    then Alternatives(t.children[0]) + [t.children[2]]
    else [t]
  }

  /** The elements of a concatenation, left to right. */
  function Elements(t: ParseTree): seq<ParseTree>
    decreases t
  {
    if t.Node? && |t.children| == 2 then Elements(t.children[0]) + [t.children[1]]
    else if t.Node? && |t.children| == 1 then [t.children[0]]
    else []
  }

  predicate WellFormedElements(input: string, es: seq<ParseTree>) {
    forall i :: 0 <= i < |es| ==> InBounds(es[i], |input|) && WellFormedElement(input, es[i])
  }

  /** Concatenations whose elements are all well formed. */
  predicate WellFormedAlternatives(input: string, alts: seq<ParseTree>) {
    forall i :: 0 <= i < |alts| ==>
      InBounds(alts[i], |input|) && WellFormedConcatenation(input, alts[i]) &&
      WellFormedElements(input, Elements(alts[i]))
  }

  /** What one element contributes to a right-hand side: a non-terminal
      for a rule name; the decoded text as one terminal for a non-empty
      literal, nothing for an empty one. */
  function ElementSymbols(input: string, e: ParseTree): Result<seq<Symbol>, ImportError>
    requires InBounds(e, |input|) && WellFormedElement(input, e)
  {
    var x := e.children[0];
    assert InBounds(x, |input|);
    if x.key == "rule-name-container" then Ok([NT(RuleName(input, x))])
    else
      assert InBounds(x.children[1], |input|);
      var value :- DecodedString(input, x.children[1]);
      Ok(if |value| == 0 then [] else [T(value)])
  }

  /** The right-hand side of one alternative: its elements' symbols, in
      order; the leftmost failing element decides the error. */
  function SequenceRhs(input: string, es: seq<ParseTree>): Result<seq<Symbol>, ImportError>
    requires WellFormedElements(input, es)
    decreases |es|
  {
    if |es| == 0 then Ok([])
    else
      var prefix :- SequenceRhs(input, es[..|es| - 1]);
      var last :- ElementSymbols(input, es[|es| - 1]);
      Ok(prefix + last)
  }

  /** One production of `name` per alternative, in order. */
  function AlternativeProductions(input: string, alts: seq<ParseTree>, name: NonTerminal): (r: Result<seq<Production>, ImportError>)
    requires WellFormedAlternatives(input, alts)
    ensures r.Ok? ==> |r.value| == |alts|
    decreases |alts|
  {
    if |alts| == 0 then Ok([])
    else
      assert WellFormedAlternatives(input, alts[..|alts| - 1]) by {
        forall i | 0 <= i < |alts| - 1 ensures alts[..|alts| - 1][i] == alts[i] { }
      }
      var prefix :- AlternativeProductions(input, alts[..|alts| - 1], name);
      var rhs :- SequenceRhs(input, Elements(alts[|alts| - 1]));
      Ok(prefix + [Production(name, rhs)])
  }

  /** A successful compilation is the compilation of all but the last
      alternative followed by the last alternative's production. */
  lemma AlternativeProductionsLast(input: string, alts: seq<ParseTree>, name: NonTerminal)
    requires WellFormedAlternatives(input, alts) && |alts| > 0
    requires AlternativeProductions(input, alts, name).Ok?
    ensures WellFormedAlternatives(input, alts[..|alts| - 1])
    ensures AlternativeProductions(input, alts[..|alts| - 1], name).Ok?
    ensures SequenceRhs(input, Elements(alts[|alts| - 1])).Ok?
    ensures AlternativeProductions(input, alts, name).value ==
      AlternativeProductions(input, alts[..|alts| - 1], name).value +
      [Production(name, SequenceRhs(input, Elements(alts[|alts| - 1])).value)]
  {
    var front := alts[..|alts| - 1];
    assert WellFormedAlternatives(input, front) by {
      forall i | 0 <= i < |front| ensures front[i] == alts[i] { }
    }
  }

  /** When compilation succeeds, production i belongs to alternative i and
      lists that alternative's symbols. */
  lemma {:induction false} AlternativeProductionsInOrder(input: string, alts: seq<ParseTree>, name: NonTerminal)
    requires WellFormedAlternatives(input, alts)
    requires AlternativeProductions(input, alts, name).Ok?
    ensures forall i :: 0 <= i < |alts| ==>
      SequenceRhs(input, Elements(alts[i])).Ok? &&
      AlternativeProductions(input, alts, name).value[i] == Production(name, SequenceRhs(input, Elements(alts[i])).value)
    decreases |alts|
  {
    if |alts| > 0 {
      var front := alts[..|alts| - 1];
      AlternativeProductionsLast(input, alts, name);
      AlternativeProductionsInOrder(input, front, name);
      var ps := AlternativeProductions(input, alts, name).value;
      var prefix := AlternativeProductions(input, front, name).value;
      forall i | 0 <= i < |alts|
        ensures SequenceRhs(input, Elements(alts[i])).Ok?
        ensures ps[i] == Production(name, SequenceRhs(input, Elements(alts[i])).value)
      {
        if i < |front| {
          assert front[i] == alts[i];
          assert prefix[i] == Production(name, SequenceRhs(input, Elements(front[i])).value);
          assert ps[i] == prefix[i];
        } else {
          assert i == |front| && ps[i] == Production(name, SequenceRhs(input, Elements(alts[i])).value);
        }
      }
    }
  }

  /** The reference reading of one rule: one production of the rule's
      name per alternative of its expression. */
  function RuleReading(input: string, rule: ParseTree): Result<seq<Production>, ImportError>
    requires InBounds(rule, |input|) && WellFormedRule(input, rule)
  {
    assert InBounds(rule.children[0], |input|) && InBounds(rule.children[2], |input|);
    var name := RuleName(input, rule.children[0]);
    ExpressionCompiles(input, rule.children[2], name);
    AlternativeProductions(input, Alternatives(rule.children[2]), name)
  }

  /** The reference reading of a document: its rules' readings one after
      the other, the first rule that fails deciding the error. */
  function DocumentProductions(input: string, rules: seq<ParseTree>): Result<seq<Production>, ImportError>
    requires WellFormedRules(input, rules)
    decreases |rules|
  {
    if |rules| == 0 then Ok([])
    else
      var first :- RuleReading(input, rules[0]);
      var rest :- DocumentProductions(input, rules[1..]);
      Ok(first + rest)
  }

  /** A single production of `name` over a computed right-hand side. */
  function OneProduction(name: NonTerminal, rhs: Result<seq<Symbol>, ImportError>): Result<seq<Production>, ImportError> {
    if rhs.Ok? then Ok([Production(name, rhs.value)]) else Err(rhs.error)
  }

  /** An element compiles to exactly one production. */
  lemma ElementCompiles(input: string, e: ParseTree, name: NonTerminal)
    requires InBounds(e, |input|) && WellFormedElement(input, e)
    ensures MakeProductions(input, e, name) == OneProduction(name, ElementSymbols(input, e))
  {
    var x := e.children[0];
    assert InBounds(x, |input|);
  }

  /** A concatenation compiles to exactly one production, listing the
      symbols of its elements in order. */
  lemma {:induction false} ConcatenationCompiles(input: string, c: ParseTree, name: NonTerminal)
    requires InBounds(c, |input|) && WellFormedConcatenation(input, c)
    ensures WellFormedElements(input, Elements(c))
    ensures MakeProductions(input, c, name) == OneProduction(name, SequenceRhs(input, Elements(c)))
    decreases c
  {
    assert AllInBounds(c.children, |input|);
    if |c.children| == 1 {
      var e := c.children[0];
      ElementCompiles(input, e, name);
      assert Elements(c) == [e];
      assert [e][..0] == [];
      var s := ElementSymbols(input, e);
      assert s.Ok? ==> [] + s.value == s.value;
    } else {
      var prefix := c.children[0];
      var e := c.children[1];
      ConcatenationCompiles(input, prefix, name);
      ElementCompiles(input, e, name);
      var es := Elements(c);
      assert es == Elements(prefix) + [e];
      assert es[..|es| - 1] == Elements(prefix);
      assert es[|es| - 1] == e;
    }
  }

  /** An expression compiles to one production per alternative, in order:
      the compiler agrees with the reference reading above. */
  lemma {:induction false} ExpressionCompiles(input: string, t: ParseTree, name: NonTerminal)
    requires InBounds(t, |input|) && WellFormedExpression(input, t)
    ensures WellFormedAlternatives(input, Alternatives(t))
    ensures MakeProductions(input, t, name) == AlternativeProductions(input, Alternatives(t), name)
    decreases t
  {
    if WellFormedConcatenation(input, t) {
      ConcatenationCompiles(input, t, name);
      assert Alternatives(t) == [t];
      assert [t][..0] == [];
      var s := SequenceRhs(input, Elements(t));
      assert s.Ok? ==> [] + [Production(name, s.value)] == [Production(name, s.value)];
    } else {
      assert AllInBounds(t.children, |input|);
      var left := t.children[0];
      var right := t.children[2];
      ExpressionCompiles(input, left, name);
      ConcatenationCompiles(input, right, name);
      var alts := Alternatives(t);
      assert alts == Alternatives(left) + [right];
      assert alts[..|alts| - 1] == Alternatives(left);
      assert alts[|alts| - 1] == right;
    }
  }

  /** Only an escaped code point outside Unicode's scalar values can make
      a well-formed element fail. */
  lemma ElementFailsOnlyOnScalars(input: string, e: ParseTree)
    requires InBounds(e, |input|) && WellFormedElement(input, e)
    ensures var r := ElementSymbols(input, e); r.Ok? || r.error.InvalidUnicodeScalar?
  {
    var x := e.children[0];
    assert InBounds(x, |input|);
    if x.key != "rule-name-container" {
      assert InBounds(x.children[1], |input|);
      WellFormedStringDecodes(input, x.children[1]);
    }
  }

  lemma {:induction false} SequenceFailsOnlyOnScalars(input: string, es: seq<ParseTree>)
    requires WellFormedElements(input, es)
    ensures var r := SequenceRhs(input, es); r.Ok? || r.error.InvalidUnicodeScalar?
    decreases |es|
  {
    if |es| > 0 {
      SequenceFailsOnlyOnScalars(input, es[..|es| - 1]);
      ElementFailsOnlyOnScalars(input, es[|es| - 1]);
    }
  }

  lemma {:induction false} AlternativesFailOnlyOnScalars(input: string, alts: seq<ParseTree>, name: NonTerminal)
    requires WellFormedAlternatives(input, alts)
    ensures var r := AlternativeProductions(input, alts, name); r.Ok? || r.error.InvalidUnicodeScalar?
    decreases |alts|
  {
    if |alts| > 0 {
      var front := alts[..|alts| - 1];
      assert WellFormedAlternatives(input, front) by {
        forall i | 0 <= i < |front| ensures front[i] == alts[i] { }
      }
      AlternativesFailOnlyOnScalars(input, front, name);
      SequenceFailsOnlyOnScalars(input, Elements(alts[|alts| - 1]));
    }
  }

  /** On a well-formed expression none of the importer's tree-shape
      failures can happen, and success yields one production per
      alternative. */
  lemma ExpressionNeverMalformed(input: string, t: ParseTree, name: NonTerminal)
    requires InBounds(t, |input|) && WellFormedExpression(input, t)
    ensures var r := MakeProductions(input, t, name);
      (r.Ok? || r.error.InvalidUnicodeScalar?) &&
      (r.Ok? ==> |r.value| == |Alternatives(t)|)
  {
    ExpressionCompiles(input, t, name);
    AlternativesFailOnlyOnScalars(input, Alternatives(t), name);
  }

  /** On well-formed rules the importer's per-rule `flatMap` is exactly
      the reference reading of the document. */
  lemma {:induction false} DocumentCompiles(input: string, rules: seq<ParseTree>)
    requires WellFormedRules(input, rules)
    ensures AllInBounds(rules, |input|)
    ensures CompileRules(input, rules) == DocumentProductions(input, rules)
    decreases |rules|
  {
    if |rules| > 0 {
      var rule := rules[0];
      assert InBounds(rule.children[0], |input|) && InBounds(rule.children[2], |input|);
      ExpressionCompiles(input, rule.children[2], RuleName(input, rule.children[0]));
      assert RuleProductions(input, rule) == RuleReading(input, rule);
      DocumentCompiles(input, rules[1..]);
    }
  }

  /** Importing a well-formed document yields the reference reading of its
      rules, completed with the end-of-line rule when needed, under the
      given start symbol; a failing rule's error is passed through. */
  lemma ImportReading(input: string, tree: ParseTree, start: NonTerminal)
    requires InBounds(tree, |input|) && WellFormedSyntax(input, tree)
    ensures var d := DocumentProductions(input, AllNodes(tree, "rule"));
      ImportGrammar(input, tree, start) ==
        if d.Ok? then Ok(Grammar(CompleteEol(d.value), start)) else Err(d.error)
  {
    DocumentCompiles(input, AllNodes(tree, "rule"));
  }

  lemma {:induction false} RulesNeverMalformed(input: string, rules: seq<ParseTree>)
    requires WellFormedRules(input, rules)
    ensures AllInBounds(rules, |input|)
    ensures var r := CompileRules(input, rules); r.Ok? || r.error.InvalidUnicodeScalar?
    decreases |rules|
  {
    if |rules| > 0 {
      var rule := rules[0];
      assert InBounds(rule.children[0], |input|) && InBounds(rule.children[2], |input|);
      ExpressionNeverMalformed(input, rule.children[2], RuleName(input, rule.children[0]));
      RulesNeverMalformed(input, rules[1..]);
    }
  }

  /** A document whose every rule is well formed imports successfully,
      unless one of its escapes names a non-scalar code point: the
      importer's internal failures are unreachable for it. */
  lemma ImportNeverMalformed(input: string, tree: ParseTree, start: NonTerminal)
    requires InBounds(tree, |input|) && WellFormedSyntax(input, tree)
    ensures var r := ImportGrammar(input, tree, start); r.Ok? || r.error.InvalidUnicodeScalar?
  {
    RulesNeverMalformed(input, AllNodes(tree, "rule"));
  }
}

=== FILE: fixpoints.dfy ===
/** Least fixpoints of inflationary, bounded set operators, computed by
    iteration. Reachability and productivity of non-terminals are both
    instances. */
module Fixpoints {

  /** `step` only ever adds elements, and only elements of `bound`. */
  ghost predicate Inflationary<T(!new)>(step: set<T> -> set<T>, bound: set<T>) {
    forall s :: s <= step(s) <= s + bound
  }

  ghost predicate Monotone<T(!new)>(step: set<T> -> set<T>) {
    forall a, b :: a <= b ==> step(a) <= step(b)
  }

  lemma ProperSubsetCardinality<T>(a: set<T>, b: set<T>)
    requires a < b
    ensures |a| < |b|
  {
    assert b - a != {};
    var x :| x in b - a;
    assert a <= b - {x};
    SubsetCardinality(a, b - {x});
  }

  lemma {:induction false} SubsetCardinality<T>(a: set<T>, b: set<T>)
    requires a <= b
    ensures |a| <= |b|
    decreases |a|
  {
    if a != {} {
      var x :| x in a;
      SubsetCardinality(a - {x}, b - {x});
    }
  }

  /** Applies `step` from `s` until nothing changes. */
  function Saturate<T(!new)>(step: set<T> -> set<T>, bound: set<T>, s: set<T>): (r: set<T>)
    requires Inflationary(step, bound)
    ensures s <= r <= s + bound
    ensures step(r) == r
    decreases |bound - s|
  {
    var next := step(s);
    if next == s then s
    else
      assert bound - next < bound - s;
      ProperSubsetCardinality(bound - next, bound - s);
      Saturate(step, bound, next)
  }

  /** Saturation stops at the least closed set above its seed. */
  lemma {:induction false} SaturateIsLeast<T(!new)>(step: set<T> -> set<T>, bound: set<T>, s: set<T>, c: set<T>)
    requires Inflationary(step, bound) && Monotone(step)
    requires s <= c && step(c) <= c
    ensures Saturate(step, bound, s) <= c
    decreases |bound - s|
  {
    var next := step(s);
    if next != s {
      assert bound - next < bound - s;
      ProperSubsetCardinality(bound - next, bound - s);
      SaturateIsLeast(step, bound, next, c);
    }
  }
}

=== FILE: grammar_check.dfy ===
/** The two grammar diagnostics, as the code computes them: unreachable
    non-terminals by a set difference of productions, unterminated
    non-terminals by a one-step finality check on a CNF grammar.
    Reachability and Chomsky normalisation are parameters. */
module GrammarCheck {
  import opened Grammars

  /** The productions reachable from a start symbol
      (the role of `Grammar.eliminateUnusedProductions`). */
  type ReachableProductions = (seq<Production>, NonTerminal) -> seq<Production>

  /** Patterns of the productions that `reachable` does not keep. */
  function UnreachableNonTerminals(g: Grammar, reachable: ReachableProductions): (r: set<NonTerminal>)
    ensures forall n :: n in r <==>
      exists p :: p in g.productions && p !in reachable(g.productions, g.start) && p.pattern == n
  {
    var productionSet := set p | p in g.productions;
    var reachableSet := set p | p in reachable(g.productions, g.start);
    set p | p in productionSet - reachableSet :: p.pattern
  }

  /** Nothing is reported when every production is reachable. */
  lemma AllReachableMeansNoneUnreachable(g: Grammar, reachable: ReachableProductions)
    requires forall p :: p in g.productions ==> p in reachable(g.productions, g.start)
    ensures UnreachableNonTerminals(g, reachable) == {}
  {
  }

  /** Only non-terminals with a production of their own are reported. */
  lemma UnreachableArePatterns(g: Grammar, reachable: ReachableProductions)
    ensures UnreachableNonTerminals(g, reachable) <= Patterns(g.productions)
  {
  }

  /** The productions of `n`, in grammar order. */
  function ProductionsOf(prods: seq<Production>, n: NonTerminal): (r: seq<Production>)
    ensures forall p :: p in r <==> p in prods && p.pattern == n
    ensures |r| <= |prods|
  {
    if |prods| == 0 then []
    else (if prods[0].pattern == n then [prods[0]] else []) + ProductionsOf(prods[1..], n)
  }

  /** `Dictionary(grouping:by:)` keyed by pattern: one entry per defined
      non-terminal, holding its productions in grammar order. */
  function GroupByPattern(prods: seq<Production>): (groups: map<NonTerminal, seq<Production>>)
    ensures groups.Keys == Patterns(prods)
    ensures forall n :: n in groups ==> groups[n] == ProductionsOf(prods, n)
  {
    if |prods| == 0 then map[]
    else
      var rest := GroupByPattern(prods[1..]);
      GroupConsCorrect(prods, rest);
      AddToGroup(rest, prods[0])
  }

  /** Prepends `p` to the group of its pattern. */
  function AddToGroup(groups: map<NonTerminal, seq<Production>>, p: Production): map<NonTerminal, seq<Production>> {
    groups[p.pattern := [p] + (if p.pattern in groups then groups[p.pattern] else [])]
  }

  lemma GroupConsCorrect(prods: seq<Production>, rest: map<NonTerminal, seq<Production>>)
    requires |prods| > 0
    requires rest.Keys == Patterns(prods[1..])
    requires forall n :: n in rest ==> rest[n] == ProductionsOf(prods[1..], n)
    ensures AddToGroup(rest, prods[0]).Keys == Patterns(prods)
    ensures forall n :: n in AddToGroup(rest, prods[0]) ==> AddToGroup(rest, prods[0])[n] == ProductionsOf(prods, n)
  {
    var p := prods[0];
    var groups := AddToGroup(rest, p);
    PatternsCons(prods);
    forall n | n in groups
      ensures groups[n] == ProductionsOf(prods, n)
    {
      var tail := ProductionsOf(prods[1..], n);
      assert ProductionsOf(prods, n) == (if p.pattern == n then [p] else []) + tail;
      if n != p.pattern {
        assert groups[n] == rest[n];
      } else if n in rest {
        assert groups[n] == [p] + rest[n];
      } else {
        UndefinedHasNoProductions(prods[1..], n);
        assert groups[n] == [p];
      }
    }
  }

  lemma PatternsCons(prods: seq<Production>)
    requires |prods| > 0
    ensures Patterns(prods) == {prods[0].pattern} + Patterns(prods[1..])
  {
    forall n | n in Patterns(prods)
      ensures n in {prods[0].pattern} + Patterns(prods[1..])
    {
      var q :| q in prods && q.pattern == n;
      if q != prods[0] {
        assert q in prods[1..];
      }
    }
  }

  lemma UndefinedHasNoProductions(prods: seq<Production>, n: NonTerminal)
    requires n !in Patterns(prods)
    ensures ProductionsOf(prods, n) == []
  {
  }

  /** The CNF branch: the patterns none of whose productions is final. */
  function UnterminatedInCnf(prods: seq<Production>): (r: set<NonTerminal>)
    ensures forall n :: n in r <==>
      n in Patterns(prods) && forall p :: p in prods && p.pattern == n ==> !IsFinal(p)
  {
    var groups := GroupByPattern(prods);
    set n | n in groups && forall p :: p in groups[n] ==> !IsFinal(p)
  }

  /** A grammar not in CNF is normalised first; the answer is then read off
      the normalised grammar. */
  function UnterminatedNonTerminals(g: Grammar, isCnf: Grammar -> bool, normalize: Grammar -> Grammar): (r: set<NonTerminal>)
    requires isCnf(g) || isCnf(normalize(g))
    ensures var h := if isCnf(g) then g else normalize(g);
      forall n :: n in r <==>
        n in Patterns(h.productions) && forall p :: p in h.productions && p.pattern == n ==> !IsFinal(p)
    decreases if isCnf(g) then 0 else 1
  {
    if isCnf(g) then UnterminatedInCnf(g.productions)
    else UnterminatedNonTerminals(normalize(g), isCnf, normalize)
  }

  /** Outside CNF the answer is exactly the CNF answer for the normalised grammar. */
  lemma NonCnfDelegates(g: Grammar, isCnf: Grammar -> bool, normalize: Grammar -> Grammar)
    requires !isCnf(g) && isCnf(normalize(g))
    ensures UnterminatedNonTerminals(g, isCnf, normalize) == UnterminatedInCnf(normalize(g).productions)
  {
  }

  /** A non-terminal with a final production is never reported. */
  lemma FinalProductionIsTerminated(prods: seq<Production>, p: Production)
    requires p in prods && IsFinal(p)
    ensures p.pattern !in UnterminatedInCnf(prods)
  {
  }

  /** A non-terminal that only occurs on right-hand sides is never reported. */
  lemma UndefinedIsNotReported(prods: seq<Production>, n: NonTerminal)
    requires n !in Patterns(prods)
    ensures n !in UnterminatedInCnf(prods)
  {
  }

  /** The one-step CNF branch, applied to the production list `A -> A`,
      reports `A`. (That grammar is not in CNF, so the full diagnostic
      would normalise it first.) */
  lemma SelfLoopIsUnterminated()
    ensures UnterminatedInCnf([Production("A", [NT("A")])]) == {"A"}
  {
    var prods := [Production("A", [NT("A")])];
    assert prods[0].rhs[0] == NT("A");
    assert Patterns(prods) == {"A"};
  }

  /** `A -> "x"`: nothing is unterminated. */
  lemma TerminalIsTerminated()
    ensures UnterminatedInCnf([Production("A", [T("x")])]) == {}
  {
    var prods := [Production("A", [T("x")])];
    FinalProductionIsTerminated(prods, prods[0]);
    assert Patterns(prods) == {"A"};
  }
}

=== FILE: grammars.dfy ===
/** Symbols, productions and grammars: the immutable values the diagnostics
    and the BNF importer work on. */
module Grammars {

  /** A non-terminal is identified by its (case-sensitive) name. */
  type NonTerminal = string

  /** A grammar symbol: a non-terminal reference or a literal terminal. */
  datatype Symbol = NT(name: NonTerminal) | T(literal: string)

  /** `pattern -> rhs`; an empty right-hand side is an epsilon production. */
  datatype Production = Production(pattern: NonTerminal, rhs: seq<Symbol>)

  /** An ordered list of productions and a start symbol. */
  datatype Grammar = Grammar(productions: seq<Production>, start: NonTerminal)

  /** A production is final when its right-hand side holds no non-terminal
      (only terminals, or nothing at all). */
  predicate IsFinal(p: Production) {
    forall i :: 0 <= i < |p.rhs| ==> p.rhs[i].T?
  }

  /** The non-terminals a production refers to on its right-hand side. */
  function GeneratedNonTerminals(p: Production): set<NonTerminal> {
    set s | s in p.rhs && s.NT? :: s.name
  }

  /** The non-terminals that have at least one production. */
  function Patterns(prods: seq<Production>): set<NonTerminal> {
    set p | p in prods :: p.pattern
  }

  /** Every non-terminal referenced on some right-hand side. */
  function Referenced(prods: seq<Production>): set<NonTerminal> {
    set p, s | p in prods && s in p.rhs && s.NT? :: s.name
  }

  lemma FinalIffGeneratesNothing(p: Production)
    ensures IsFinal(p) <==> GeneratedNonTerminals(p) == {}
  {
    if !IsFinal(p) {
      var i :| 0 <= i < |p.rhs| && !p.rhs[i].T?;
      assert p.rhs[i].name in GeneratedNonTerminals(p);
    }
  }
}

=== FILE: hex_numbers.dfy ===
/** Hexadecimal digit strings: their value, Swift's `Int(_:radix: 16)` on a
    64-bit platform, and the inverse rendering of a number. */
module HexNumbers {
  import opened Results

  predicate IsHexDigit(c: char) {
    '0' <= c <= '9' || 'a' <= c <= 'f' || 'A' <= c <= 'F'
  }

  predicate AllHexDigits(s: string) {
    forall i :: 0 <= i < |s| ==> IsHexDigit(s[i])
  }

  function DigitValue(c: char): (v: nat)
    requires IsHexDigit(c)
    ensures v < 16
  {
    if '0' <= c <= '9' then c as int - '0' as int
    else if 'a' <= c <= 'f' then c as int - 'a' as int + 10
    else c as int - 'A' as int + 10
  }

  function Pow16(n: nat): (p: nat)
    ensures p >= 1
  {
    if n == 0 then 1 else 16 * Pow16(n - 1)
  }

  /** The value of a digit string, most significant digit first. */
  function HexValue(s: string): (v: nat)
    requires AllHexDigits(s)
    ensures v < Pow16(|s|)
  {
    if |s| == 0 then 0
    else HexValue(s[..|s| - 1]) * 16 + DigitValue(s[|s| - 1])
  }

  /** Bounds of Swift's 64-bit `Int`. */
  const IntMin: int := -0x8000_0000_0000_0000
  const IntMax: int := 0x7FFF_FFFF_FFFF_FFFF

  /** `Int(text, radix: 16)`: an optional `+` or `-`, then at least one hex
      digit, with a value that fits in 64 bits; anything else is `nil`. */
  function ParseHexInt(text: string): (r: Option<int>)
    ensures r.Some? ==> IntMin <= r.value <= IntMax
  {
    var signed := |text| > 0 && (text[0] == '+' || text[0] == '-');
    var digits := if signed then text[1..] else text;
    if |digits| == 0 || !AllHexDigits(digits) then None
    else
      var v: int := if signed && text[0] == '-' then -(HexValue(digits) as int) else HexValue(digits);
      if IntMin <= v <= IntMax then Some(v) else None
  }

  /** One to eight hex digits, as the BNF grammar admits inside `\u{...}`,
      always parse, to their value, which lies below 16^8. */
  lemma ScalarDigitsParse(s: string)
    requires 1 <= |s| <= 8 && AllHexDigits(s)
    ensures ParseHexInt(s) == Some(HexValue(s))
    ensures HexValue(s) < 0x1_0000_0000
  {
    PowMonotone(|s|, 8);
    assert Pow16(8) == 0x1_0000_0000;
  }

  lemma {:induction false} PowMonotone(m: nat, n: nat)
    requires m <= n
    ensures Pow16(m) <= Pow16(n)
    decreases n - m
  {
    if m < n {
      PowMonotone(m, n - 1);
    }
  }

  /** The lower-case digit for `d`. */
  function HexDigit(d: nat): (c: char)
    requires d < 16
    ensures IsHexDigit(c) && DigitValue(c) == d
  {
    if d < 10 then ('0' as int + d) as char else ('a' as int + d - 10) as char
  }

  /** `v` in lower-case hex without leading zeros. */
  function ToHex(v: nat): (s: string)
    ensures 1 <= |s|
    ensures AllHexDigits(s)
    ensures HexValue(s) == v
    decreases v
  {
    if v < 16 then [HexDigit(v)]
    else
      var s := ToHex(v / 16) + [HexDigit(v % 16)];
      assert s[..|s| - 1] == ToHex(v / 16);
      s
  }

  /** Numbers below 16^n need at most n digits. */
  lemma {:induction false} ToHexLength(v: nat, n: nat)
    requires 1 <= n && v < Pow16(n)
    ensures |ToHex(v)| <= n
    decreases v
  {
    if v >= 16 {
      assert n >= 2;
      ToHexLength(v / 16, n - 1);
    }
  }
}

=== FILE: import_errors.dfy ===
/** What can go wrong while turning a BNF parse tree into productions.
    `InvalidUnicodeScalar` is the error the importer throws; every other
    variant stands for a place where it stops the process instead (a
    `fatalError()`, a failed `assert`, a forced unwrap, an index past the
    end of a child list). */
module ImportErrors {

  datatype ImportError =
    | InvalidUnicodeScalar(value: int)
      /** `.first` of a node without children, or `.children` of a leaf. */
    | MissingChild
      /** A child count the code rejects or indexes past. */
    | UnexpectedChildCount(count: nat)
      /** A leaf where the code needs a node. */
    | UnexpectedLeaf
      /** A node key that no case handles. */
    | UnexpectedNode(key: string)
      /** The text inside `\u{...}` is not a 64-bit hex integer. */
    | InvalidHexLiteral(text: string)
      /** A concatenation operand that did not compile to one production. */
    | ProductionCountMismatch(count: nat)

  /** Errors that only a tree the BNF grammar cannot produce reaches. */
  predicate IsMalformedTree(e: ImportError) {
    !e.InvalidUnicodeScalar?
  }
}

=== FILE: parse_trees.dfy ===
/** Parse trees over a text: leaves carry the range of the text a terminal
    consumed, nodes carry the non-terminal that produced them. Only the
    read-only views the BNF importer uses are modelled. */
module ParseTrees {

  /** The half-open range `[lo, hi)` of the parsed text. */
  datatype Span = Span(lo: nat, hi: nat)

  datatype ParseTree = Leaf(span: Span) | Node(key: string, children: seq<ParseTree>)

  predicate SpanWithin(s: Span, n: nat) {
    s.lo <= s.hi <= n
  }

  predicate SpansWithin(spans: seq<Span>, n: nat) {
    forall i :: 0 <= i < |spans| ==> SpanWithin(spans[i], n)
  }

  /** Every leaf of `t` lies inside a text of length `n`. */
  predicate InBounds(t: ParseTree, n: nat) {
    match t
    case Leaf(s) => SpanWithin(s, n)
    case Node(_, cs) => forall i :: 0 <= i < |cs| ==> InBounds(cs[i], n)
  }

  predicate AllInBounds(ts: seq<ParseTree>, n: nat) {
    forall i :: 0 <= i < |ts| ==> InBounds(ts[i], n)
  }

  /** The leaf ranges of a tree, left to right. */
  function Leafs(t: ParseTree): seq<Span>
    decreases t
  {
    match t
    case Leaf(s) => [s]
    case Node(_, cs) => LeafsOf(cs)
  }

  /** The leaf ranges of a sequence of trees (`flatMap { $0.leafs }`). */
  function LeafsOf(ts: seq<ParseTree>): seq<Span>
    decreases ts
  {
    if |ts| == 0 then [] else Leafs(ts[0]) + LeafsOf(ts[1..])
  }

  lemma {:induction false} LeafsOfAppend(a: seq<ParseTree>, b: seq<ParseTree>)
    ensures LeafsOf(a + b) == LeafsOf(a) + LeafsOf(b)
    decreases a
  {
    if |a| == 0 {
      assert a + b == b;
    } else {
      assert (a + b)[0] == a[0];
      assert (a + b)[1..] == a[1..] + b;
      LeafsOfAppend(a[1..], b);
    }
  }

  lemma {:induction false} LeafsWithin(t: ParseTree, n: nat)
    requires InBounds(t, n)
    ensures SpansWithin(Leafs(t), n)
    decreases t
  {
    match t
    case Leaf(_) =>
    case Node(_, cs) => LeafsOfWithin(cs, n);
  }

  lemma {:induction false} LeafsOfWithin(ts: seq<ParseTree>, n: nat)
    requires AllInBounds(ts, n)
    ensures SpansWithin(LeafsOf(ts), n)
    decreases ts
  {
    if |ts| > 0 {
      LeafsWithin(ts[0], n);
      LeafsOfWithin(ts[1..], n);
    }
  }

  /** The total number of positions `spans` cover, counted with repeats. */
  function Width(spans: seq<Span>): int {
    if |spans| == 0 then 0
    else
      var last := spans[|spans| - 1];
      Width(spans[..|spans| - 1]) + (last.hi - last.lo)
  }

  /** The text covered by `spans`, concatenated in order. */
  function Text(input: string, spans: seq<Span>): (r: string)
    requires SpansWithin(spans, |input|)
    ensures |r| == Width(spans)
  {
    if |spans| == 0 then ""
    else
      var last := spans[|spans| - 1];
      Text(input, spans[..|spans| - 1]) + input[last.lo..last.hi]
  }

  /** Every subtree whose key is `key`, pre-order, including `t` itself;
      a matching node's own descendants are searched too. */
  function AllNodes(t: ParseTree, key: string): seq<ParseTree>
    decreases t
  {
    match t
    case Leaf(_) => []
    case Node(k, cs) => (if k == key then [t] else []) + AllNodesOf(cs, key)
  }

  function AllNodesOf(ts: seq<ParseTree>, key: string): seq<ParseTree>
    decreases ts
  {
    if |ts| == 0 then [] else AllNodes(ts[0], key) + AllNodesOf(ts[1..], key)
  }

  lemma {:induction false} AllNodesAreMatchingNodes(t: ParseTree, key: string, n: nat)
    requires InBounds(t, n)
    ensures AllInBounds(AllNodes(t, key), n)
    ensures forall i :: 0 <= i < |AllNodes(t, key)| ==> AllNodes(t, key)[i].Node? && AllNodes(t, key)[i].key == key
    decreases t
  {
    match t
    case Leaf(_) =>
    case Node(k, cs) => AllNodesOfAreMatchingNodes(cs, key, n);
  }

  lemma {:induction false} AllNodesOfAreMatchingNodes(ts: seq<ParseTree>, key: string, n: nat)
    requires AllInBounds(ts, n)
    ensures AllInBounds(AllNodesOf(ts, key), n)
    ensures forall i :: 0 <= i < |AllNodesOf(ts, key)| ==> AllNodesOf(ts, key)[i].Node? && AllNodesOf(ts, key)[i].key == key
    decreases ts
  {
    if |ts| > 0 {
      AllNodesAreMatchingNodes(ts[0], key, n);
      AllNodesOfAreMatchingNodes(ts[1..], key, n);
    }
  }

  /** The left-recursive list `L -> L C | ε` over `[lo, hi)` with one
      character per `C` node: how the BNF grammar parses rule names and
      string contents. */
  function CharChain(listKey: string, charKey: string, lo: nat, hi: nat): ParseTree
    requires lo <= hi
    decreases hi - lo
  {
    if hi == lo then Node(listKey, [])
    else Node(listKey, [CharChain(listKey, charKey, lo, hi - 1), CharNode(charKey, hi - 1)])
  }

  /** A character node over the single character at `i`. */
  function CharNode(charKey: string, i: nat): ParseTree {
    Node(charKey, [Leaf(Span(i, i + 1))])
  }

  /** One character node per position of `[lo, hi)`. */
  function CharNodes(charKey: string, lo: nat, hi: nat): seq<ParseTree>
    requires lo <= hi
    decreases hi - lo
  {
    if hi == lo then [] else CharNodes(charKey, lo, hi - 1) + [CharNode(charKey, hi - 1)]
  }

  /** One single-character span per position of `[lo, hi)`. */
  function UnitSpans(lo: nat, hi: nat): (r: seq<Span>)
    requires lo <= hi
    ensures |r| == hi - lo
    ensures SpansWithin(r, hi)
    decreases hi - lo
  {
    if hi == lo then [] else UnitSpans(lo, hi - 1) + [Span(hi - 1, hi)]
  }

  lemma {:induction false} UnitSpansText(input: string, lo: nat, hi: nat)
    requires lo <= hi <= |input|
    ensures SpansWithin(UnitSpans(lo, hi), |input|)
    ensures Text(input, UnitSpans(lo, hi)) == input[lo..hi]
    decreases hi - lo
  {
    if hi > lo {
      UnitSpansText(input, lo, hi - 1);
      var spans := UnitSpans(lo, hi);
      assert spans[..|spans| - 1] == UnitSpans(lo, hi - 1);
      assert input[lo..hi] == input[lo..hi - 1] + input[hi - 1..hi];
    }
  }

  lemma CharNodeViews(charKey: string, i: nat)
    ensures AllNodes(CharNode(charKey, i), charKey) == [CharNode(charKey, i)]
    ensures LeafsOf([CharNode(charKey, i)]) == [Span(i, i + 1)]
  {
    var c := CharNode(charKey, i);
    assert [c][1..] == [];
    assert c.children[1..] == [];
    assert AllNodesOf(c.children, charKey) == [];
    assert LeafsOf(c.children) == [Span(i, i + 1)];
  }

  lemma PairNodes(k: string, x: ParseTree, y: ParseTree, key: string)
    requires k != key
    ensures AllNodes(Node(k, [x, y]), key) == AllNodes(x, key) + AllNodes(y, key)
  {
    assert [x, y][1..] == [y];
    assert [y][1..] == [];
    assert AllNodesOf([y], key) == AllNodes(y, key) + AllNodesOf([], key);
    assert AllNodesOf([x, y], key) == AllNodes(x, key) + AllNodesOf([y], key);
  }

  /** The `charKey` nodes of a chain are its character nodes, in order. */
  lemma {:induction false} CharChainNodes(listKey: string, charKey: string, lo: nat, hi: nat)
    requires lo <= hi && listKey != charKey
    ensures AllNodes(CharChain(listKey, charKey, lo, hi), charKey) == CharNodes(charKey, lo, hi)
    decreases hi - lo
  {
    if hi > lo {
      var prefix := CharChain(listKey, charKey, lo, hi - 1);
      var c := CharNode(charKey, hi - 1);
      CharChainNodes(listKey, charKey, lo, hi - 1);
      CharNodeViews(charKey, hi - 1);
      PairNodes(listKey, prefix, c, charKey);
    }
  }

  /** The leaves of consecutive character nodes are consecutive characters. */
  lemma {:induction false} CharNodesLeafs(charKey: string, lo: nat, hi: nat)
    requires lo <= hi
    ensures LeafsOf(CharNodes(charKey, lo, hi)) == UnitSpans(lo, hi)
    decreases hi - lo
  {
    if hi > lo {
      CharNodesLeafs(charKey, lo, hi - 1);
      CharNodeViews(charKey, hi - 1);
      LeafsOfAppend(CharNodes(charKey, lo, hi - 1), [CharNode(charKey, hi - 1)]);
    }
  }

  lemma {:induction false} CharChainInBounds(listKey: string, charKey: string, lo: nat, hi: nat, n: nat)
    requires lo <= hi <= n
    ensures InBounds(CharChain(listKey, charKey, lo, hi), n)
    decreases hi - lo
  {
    if hi > lo {
      CharChainInBounds(listKey, charKey, lo, hi - 1, n);
      assert InBounds(CharNode(charKey, hi - 1), n);
    }
  }

  lemma {:induction false} CharNodesInBounds(charKey: string, lo: nat, hi: nat, n: nat)
    requires lo <= hi <= n
    ensures AllInBounds(CharNodes(charKey, lo, hi), n)
    decreases hi - lo
  {
    if hi > lo {
      CharNodesInBounds(charKey, lo, hi - 1, n);
      assert InBounds(CharNode(charKey, hi - 1), n);
    }
  }
}

=== FILE: reachability.dfy ===
/** A reference reachability closure, standing in for
    `Grammar.eliminateUnusedProductions`: a production is kept when its
    pattern can be reached from the start symbol. */
module Reachability {
  import opened Grammars
  import opened Fixpoints
  import GrammarCheck

  /** The non-terminals one derivation step away from `reached`. */
  function Successors(prods: seq<Production>, reached: set<NonTerminal>): set<NonTerminal> {
    set p, s | p in prods && p.pattern in reached && s in p.rhs && s.NT? :: s.name
  }

  function ReachStep(prods: seq<Production>): set<NonTerminal> -> set<NonTerminal> {
    reached => reached + Successors(prods, reached)
  }

  lemma ReachStepIsInflationaryAndMonotone(prods: seq<Production>)
    ensures Inflationary(ReachStep(prods), Referenced(prods))
    ensures Monotone(ReachStep(prods))
  {
  }

  /** The least set holding `start` and closed under `Successors`. */
  function ReachableNonTerminals(prods: seq<Production>, start: NonTerminal): (r: set<NonTerminal>)
    ensures start in r
    ensures Successors(prods, r) <= r
    ensures r <= {start} + Referenced(prods)
  {
    ReachStepIsInflationaryAndMonotone(prods);
    Saturate(ReachStep(prods), Referenced(prods), {start})
  }

  lemma ReachableIsLeast(prods: seq<Production>, start: NonTerminal, closed: set<NonTerminal>)
    requires start in closed && Successors(prods, closed) <= closed
    ensures ReachableNonTerminals(prods, start) <= closed
  {
    ReachStepIsInflationaryAndMonotone(prods);
    SaturateIsLeast(ReachStep(prods), Referenced(prods), {start}, closed);
  }

  /** The productions whose pattern lies in `names`, in grammar order. */
  function ProductionsFor(prods: seq<Production>, names: set<NonTerminal>): (r: seq<Production>)
    ensures forall p :: p in r <==> p in prods && p.pattern in names
    ensures |r| <= |prods|
  {
    if |prods| == 0 then []
    else (if prods[0].pattern in names then [prods[0]] else []) + ProductionsFor(prods[1..], names)
  }

  /** The productions of every non-terminal reachable from `start`. */
  function ReachableProductions(prods: seq<Production>, start: NonTerminal): (r: seq<Production>)
    ensures forall p :: p in r <==> p in prods && p.pattern in ReachableNonTerminals(prods, start)
  {
    ProductionsFor(prods, ReachableNonTerminals(prods, start))
  }

  /** With this closure, a non-terminal is unreachable exactly when it has
      a production and cannot be reached from the start symbol. */
  lemma UnreachableMeansDefinedButUnreached(g: Grammar, n: NonTerminal)
    ensures n in GrammarCheck.UnreachableNonTerminals(g, ReachableProductions)
        <==> n in Patterns(g.productions) && n !in ReachableNonTerminals(g.productions, g.start)
  {
  }

  /** `S -> "x"`, `U -> "y"` with start `S`: exactly `U` is unreachable. */
  lemma UnusedProductionIsUnreachable(s: NonTerminal, u: NonTerminal, x: string, y: string)
    requires s != u
    ensures GrammarCheck.UnreachableNonTerminals(
              Grammar([Production(s, [T(x)]), Production(u, [T(y)])], s), ReachableProductions) == {u}
  {
    var g := Grammar([Production(s, [T(x)]), Production(u, [T(y)])], s);
    assert Successors(g.productions, {s}) == {};
    ReachableIsLeast(g.productions, s, {s});
    assert ReachableNonTerminals(g.productions, s) == {s};
    var r := GrammarCheck.UnreachableNonTerminals(g, ReachableProductions);
    UnreachableMeansDefinedButUnreached(g, u);
    assert g.productions[1] in g.productions;
    assert u in r;
    forall n | n in r
      ensures n == u
    {
      UnreachableMeansDefinedButUnreached(g, n);
    }
  }
}

=== FILE: results.dfy ===
/** Failure-compatible wrappers shared by the grammar modules, usable with `:-`. */
module Results {

  datatype Option<+T> = None | Some(value: T) {
    predicate IsFailure() { None? }

    function PropagateFailure<U>(): Option<U>
      requires None?
    {
      None
    }

    function Extract(): T
      requires Some?
    {
      value
    }
  }

  datatype Result<+T, +E> = Ok(value: T) | Err(error: E) {
    predicate IsFailure() { Err? }

    function PropagateFailure<U>(): Result<U, E>
      requires Err?
    {
      Err(error)
    }

    function Extract(): T
      requires Ok?
    {
      value
    }
  }
}

=== FILE: string_literals.dfy ===
/** Decoding of BNF string literals from their parse trees: plain
    characters, the escapes `\r \n \t \\`, and `\u{hex}` Unicode scalars. */
module StringLiterals {
  import opened Results
  import opened ParseTrees
  import opened HexNumbers
  import opened ImportErrors

  /** Values `UnicodeScalar(Int)` accepts: not a surrogate, at most 0x10FFFF. */
  predicate IsScalarValue(v: int) {
    0 <= v < 0xD800 || 0xE000 <= v <= 0x10_FFFF
  }

  /** `UnicodeScalar(Int)`, which fails on anything but a scalar value. */
  function UnicodeScalar(v: int): (r: Option<char>)
    ensures r.Some? <==> IsScalarValue(v)
    ensures r.Some? ==> r.value as int == v
  {
    if IsScalarValue(v) then Some(v as char) else None
  }

  /** The children of a `unicode-scalar` node are `\`, `u`, `{`, the digits
      and `}`: the hex text is every leaf after the first three children
      and before the last one. */
  function ScalarDigitsText(input: string, cs: seq<ParseTree>): string
    requires AllInBounds(cs, |input|)
  {
    var digits := if |cs| <= 3 then [] else cs[3..|cs| - 1];
    assert AllInBounds(digits, |input|);
    LeafsOfWithin(digits, |input|);
    Text(input, LeafsOf(digits))
  }

  /** `\u{hex}`: the digits read base 16, then checked to be a scalar. */
  function DecodeScalar(input: string, cs: seq<ParseTree>): (r: Result<string, ImportError>)
    requires AllInBounds(cs, |input|)
    ensures r.Ok? ==> |r.value| == 1 && IsScalarValue(r.value[0] as int)
    ensures r.Err? ==> r.error == InvalidHexLiteral(ScalarDigitsText(input, cs)) ||
                       (r.error.InvalidUnicodeScalar? && !IsScalarValue(r.error.value))
  {
    var hex := ScalarDigitsText(input, cs);
    match ParseHexInt(hex)
    case None => Err(InvalidHexLiteral(hex))
    case Some(v) =>
      match UnicodeScalar(v)
      case None => Err(InvalidUnicodeScalar(v))
      case Some(c) => Ok([c])
  }

  /** `string(fromCharacterExpression:)`: a `string-N-char` node holds
      either a plain character leaf or a `string-escaped-char` node. */
  function CharacterExpression(input: string, t: ParseTree): (r: Result<string, ImportError>)
    requires InBounds(t, |input|)
    ensures r.Ok? && t.Node? && |t.children| > 0 && t.children[0].Node? ==> |r.value| == 1
    ensures r.Err? && r.error.InvalidUnicodeScalar? ==> !IsScalarValue(r.error.value)
  {
    if t.Leaf? || |t.children| == 0 then Err(MissingChild)
    else
      assert InBounds(t.children[0], |input|);
      match t.children[0]
      case Leaf(s) => Ok(input[s.lo..s.hi])
      case Node(k, ecs) =>
        if k != "string-escaped-char" then Err(UnexpectedNode(k))
        else if |ecs| == 0 then Err(MissingChild)
        else
          assert InBounds(ecs[0], |input|);
          match ecs[0]
          case Leaf(_) => Err(UnexpectedLeaf)
          case Node(ek, scs) =>
            if ek == "unicode-scalar" then DecodeScalar(input, scs)
            else if ek == "carriage-return" then Ok("\r")
            else if ek == "line-feed" then Ok("\n")
            else if ek == "tab-char" then Ok("\t")
            else if ek == "backslash" then Ok("\\")
            else Err(UnexpectedNode(ek))
  }

  /** `string(fromStringExpression:knownString:)`: a two-child node is a
      left-recursive prefix and a character; the character is decoded
      first and put in front of the text known so far. Any other shape
      ends the string. */
  function StringExpression(input: string, t: ParseTree, known: string): (r: Result<string, ImportError>)
    requires InBounds(t, |input|)
    ensures r == Append(DecodedString(input, t), known)
    decreases t
  {
    if t.Node? && |t.children| == 2 then
      var c :- CharacterExpression(input, t.children[1]);
      var prefix := DecodedString(input, t.children[0]);
      assert prefix.Ok? ==> prefix.value + (c + known) == (prefix.value + c) + known;
      StringExpression(input, t.children[0], c + known)
    else
      assert "" + known == known;
      Ok(known)
  }

  /** The text a string node stands for, read as the grammar writes it:
      the decoded prefix, then the decoded last character. Errors surface
      in the same order as in `StringExpression`. */
  function DecodedString(input: string, t: ParseTree): Result<string, ImportError>
    requires InBounds(t, |input|)
    decreases t
  {
    if t.Node? && |t.children| == 2 then
      var c :- CharacterExpression(input, t.children[1]);
      var prefix :- DecodedString(input, t.children[0]);
      Ok(prefix + c)
    else Ok("")
  }

  /** Appends `suffix` to a successful result. */
  function Append(r: Result<string, ImportError>, suffix: string): Result<string, ImportError> {
    if r.Ok? then Ok(r.value + suffix) else r
  }

  /** `string(fromLiteral:)`: only the middle of the three children (the
      text between the quotes) is decoded. */
  function Literal(input: string, t: ParseTree): (r: Result<string, ImportError>)
    requires InBounds(t, |input|)
    ensures t.Node? && |t.children| == 3 ==> r == DecodedString(input, t.children[1])
    ensures !(t.Node? && |t.children| == 3) ==> r.Err? && IsMalformedTree(r.error)
  {
    if t.Node? && |t.children| == 3 then
      var d := DecodedString(input, t.children[1]);
      assert d.Ok? ==> d.value + "" == d.value;
      StringExpression(input, t.children[1], "")
    else if t.Leaf? then Err(MissingChild)
    else Err(UnexpectedChildCount(|t.children|))
  }

  /** A literal made of plain characters decodes to exactly the text
      between its quotes. */
  lemma {:induction false} PlainTextDecodes(input: string, listKey: string, charKey: string, lo: nat, hi: nat)
    requires lo <= hi <= |input|
    ensures InBounds(CharChain(listKey, charKey, lo, hi), |input|)
    ensures DecodedString(input, CharChain(listKey, charKey, lo, hi)) == Ok(input[lo..hi])
    decreases hi - lo
  {
    CharChainInBounds(listKey, charKey, lo, hi, |input|);
    if hi > lo {
      PlainTextDecodes(input, listKey, charKey, lo, hi - 1);
      var prefix := CharChain(listKey, charKey, lo, hi - 1);
      var c := CharNode(charKey, hi - 1);
      assert CharChain(listKey, charKey, lo, hi) == Node(listKey, [prefix, c]);
      assert InBounds(c, |input|);
      assert DecodedString(input, prefix) == Ok(input[lo..hi - 1]);
      assert CharacterExpression(input, c) == Ok(input[hi - 1..hi]);
      assert DecodedString(input, Node(listKey, [prefix, c])) == Ok(input[lo..hi - 1] + input[hi - 1..hi]);
      assert input[lo..hi] == input[lo..hi - 1] + input[hi - 1..hi];
    } else {
      assert input[lo..hi] == "";
    }
  }

  /** The escape sequence that writes `c` inside a BNF literal. */
  function Escape(c: char): string {
    if c == '\r' then "\\r"
    else if c == '\n' then "\\n"
    else if c == '\t' then "\\t"
    else if c == '\\' then "\\\\"
    else "\\u{" + ToHex(c as int) + "}"
  }

  /** A two-character escape node, `\` then a letter, at offset 0. */
  function SimpleEscapeNode(key: string): ParseTree {
    Node(key, [Leaf(Span(0, 1)), Leaf(Span(1, 2))])
  }

  /** The `unicode-scalar` node for `\u{` + n digits + `}` at offset 0. */
  function ScalarNode(n: nat): ParseTree {
    Node("unicode-scalar", [Leaf(Span(0, 1)), Leaf(Span(1, 2)), Leaf(Span(2, 3)),
                            Node("unicode-scalar-digits", CharNodes("digit", 3, 3 + n)),
                            Leaf(Span(3 + n, 4 + n))])
  }

  /** The character node the BNF grammar builds when it reads `Escape(c)`. */
  function EscapeTree(c: char): ParseTree {
    var escape :=
      if c == '\r' then SimpleEscapeNode("carriage-return")
      else if c == '\n' then SimpleEscapeNode("line-feed")
      else if c == '\t' then SimpleEscapeNode("tab-char")
      else if c == '\\' then SimpleEscapeNode("backslash")
      else ScalarNode(|ToHex(c as int)|);
    Node("string-1-char", [Node("string-escaped-char", [escape])])
  }

  lemma ScalarNodeInBounds(text: string, n: nat)
    requires 4 + n <= |text|
    ensures InBounds(ScalarNode(n), |text|)
  {
    var digits := Node("unicode-scalar-digits", CharNodes("digit", 3, 3 + n));
    var cs := ScalarNode(n).children;
    assert InBounds(digits, |text|) by {
      CharNodesInBounds("digit", 3, 3 + n, |text|);
    }
    assert AllInBounds(cs, |text|) by {
      forall i | 0 <= i < |cs|
        ensures InBounds(cs[i], |text|)
      {
      }
    }
  }

  /** The digits of a scalar node are the text between `\u{` and `}`. */
  lemma ScalarNodeDigits(text: string, n: nat)
    requires 4 + n <= |text|
    ensures InBounds(ScalarNode(n), |text|)
    ensures ScalarDigitsText(text, ScalarNode(n).children) == text[3..3 + n]
  {
    ScalarNodeInBounds(text, n);
    var digits := Node("unicode-scalar-digits", CharNodes("digit", 3, 3 + n));
    var cs := ScalarNode(n).children;
    assert cs[3..|cs| - 1] == [digits];
    assert LeafsOf([digits]) == LeafsOf(CharNodes("digit", 3, 3 + n)) by {
      assert [digits][1..] == [];
    }
    CharNodesLeafs("digit", 3, 3 + n);
    UnitSpansText(text, 3, 3 + n);
  }

  lemma ScalarEscapeRoundTrip(c: char)
    requires c != '\r' && c != '\n' && c != '\t' && c != '\\'
    ensures InBounds(EscapeTree(c), |Escape(c)|)
    ensures CharacterExpression(Escape(c), EscapeTree(c)) == Ok([c])
  {
    var v := c as int;
    var hex := ToHex(v);
    var text := Escape(c);
    assert IsScalarValue(v);
    ToHexLength(v, 6);
    assert text[3..3 + |hex|] == hex;
    ScalarNodeDigits(text, |hex|);
    ScalarDigitsParse(hex);
    assert DecodeScalar(text, ScalarNode(|hex|).children) == Ok([c]);
  }

  /** Every character survives being written as an escape and read back. */
  lemma EscapeRoundTrip(c: char)
    ensures InBounds(EscapeTree(c), |Escape(c)|)
    ensures CharacterExpression(Escape(c), EscapeTree(c)) == Ok([c])
  {
    if c != '\r' && c != '\n' && c != '\t' && c != '\\' {
      ScalarEscapeRoundTrip(c);
    }
  }

  /** `\u{...}` with 1 to 8 hex digits decodes to the scalar they spell
      in base 16, or fails with exactly that value. */
  lemma ScalarEscapeDecodes(input: string, cs: seq<ParseTree>)
    requires AllInBounds(cs, |input|)
    requires 1 <= |ScalarDigitsText(input, cs)| <= 8 && AllHexDigits(ScalarDigitsText(input, cs))
    ensures var v := HexValue(ScalarDigitsText(input, cs));
      DecodeScalar(input, cs) == if IsScalarValue(v) then Ok([v as char]) else Err(InvalidUnicodeScalar(v))
  {
    ScalarDigitsParse(ScalarDigitsText(input, cs));
  }

  /** The escapes the grammar spells as a backslash and one letter. */
  predicate IsSimpleEscapeKey(key: string) {
    key == "carriage-return" || key == "line-feed" || key == "tab-char" || key == "backslash"
  }

  /** The shapes the BNF grammar gives a `string-N-char` node: one plain
      character leaf, or one `string-escaped-char` node holding a simple
      escape or a `unicode-scalar` node with 1 to 8 hex digits. */
  predicate WellFormedCharacter(input: string, t: ParseTree)
    requires InBounds(t, |input|)
  {
    t.Node? && |t.children| == 1 &&
    (t.children[0].Leaf? || WellFormedEscape(input, t.children[0]))
  }

  predicate WellFormedEscape(input: string, e: ParseTree)
    requires InBounds(e, |input|)
  {
    e.Node? && e.key == "string-escaped-char" && |e.children| == 1 && e.children[0].Node? &&
    var x := e.children[0];
    assert InBounds(x, |input|);
    (IsSimpleEscapeKey(x.key) ||
     (x.key == "unicode-scalar" && |x.children| == 5 &&
      1 <= |ScalarDigitsText(input, x.children)| <= 8 && AllHexDigits(ScalarDigitsText(input, x.children))))
  }

  /** The shapes the BNF grammar gives `string-1` / `string-2` nodes: empty,
      or a string node followed by a character node. */
  predicate WellFormedString(input: string, t: ParseTree)
    requires InBounds(t, |input|)
    decreases t
  {
    t.Node? &&
    (|t.children| == 0 ||
     (|t.children| == 2 &&
      assert InBounds(t.children[0], |input|) && InBounds(t.children[1], |input|);
      WellFormedString(input, t.children[0]) && WellFormedCharacter(input, t.children[1])))
  }

  /** The only way a well-formed character fails is a `\u{...}` whose value
      is no scalar; the tree-shape failures are unreachable. */
  lemma WellFormedCharacterDecodes(input: string, t: ParseTree)
    requires InBounds(t, |input|) && WellFormedCharacter(input, t)
    ensures var r := CharacterExpression(input, t);
      r.Ok? || (r.error.InvalidUnicodeScalar? && 0 <= r.error.value < 0x1_0000_0000)
  {
    assert InBounds(t.children[0], |input|);
    if t.children[0].Node? {
      var x := t.children[0].children[0];
      assert InBounds(x, |input|);
      if x.key == "unicode-scalar" {
        ScalarEscapeDecodes(input, x.children);
        ScalarDigitsParse(ScalarDigitsText(input, x.children));
      }
    }
  }

  lemma {:induction false} WellFormedStringDecodes(input: string, t: ParseTree)
    requires InBounds(t, |input|) && WellFormedString(input, t)
    ensures var r := DecodedString(input, t);
      r.Ok? || (r.error.InvalidUnicodeScalar? && 0 <= r.error.value < 0x1_0000_0000)
    decreases t
  {
    if |t.children| == 2 {
      assert InBounds(t.children[0], |input|) && InBounds(t.children[1], |input|);
      WellFormedCharacterDecodes(input, t.children[1]);
      WellFormedStringDecodes(input, t.children[0]);
    }
  }
}

=== FILE: termination.dfy ===
/** Productive non-terminals as a least fixpoint, and the unterminated
    non-terminals read off them: a non-terminal is unterminated when it
    has productions but can never derive a string of terminals. Unlike
    `GrammarCheck.UnterminatedInCnf`, termination is propagated through
    right-hand sides. */
module Termination {
  import opened Grammars
  import opened Fixpoints
  import GrammarCheck

  /** Patterns of the productions whose right-hand-side non-terminals are
      all in `productive`. */
  function Completed(prods: seq<Production>, productive: set<NonTerminal>): set<NonTerminal> {
    set p | p in prods && GeneratedNonTerminals(p) <= productive :: p.pattern
  }

  function ProductiveStep(prods: seq<Production>): set<NonTerminal> -> set<NonTerminal> {
    productive => productive + Completed(prods, productive)
  }

  lemma ProductiveStepIsInflationaryAndMonotone(prods: seq<Production>)
    ensures Inflationary(ProductiveStep(prods), Patterns(prods))
    ensures Monotone(ProductiveStep(prods))
  {
  }

  /** The least set of non-terminals closed under `Completed`. */
  function Productive(prods: seq<Production>): (r: set<NonTerminal>)
    ensures Completed(prods, r) <= r
    ensures r <= Patterns(prods)
  {
    ProductiveStepIsInflationaryAndMonotone(prods);
    Saturate(ProductiveStep(prods), Patterns(prods), {})
  }

  lemma ProductiveIsLeast(prods: seq<Production>, closed: set<NonTerminal>)
    requires Completed(prods, closed) <= closed
    ensures Productive(prods) <= closed
  {
    ProductiveStepIsInflationaryAndMonotone(prods);
    SaturateIsLeast(ProductiveStep(prods), Patterns(prods), {}, closed);
  }

  /** The defined non-terminals that are not productive. */
  function UnterminatedNonTerminals(prods: seq<Production>): (r: set<NonTerminal>)
    ensures r <= Patterns(prods)
    ensures forall p :: p in prods && IsFinal(p) ==> p.pattern !in r
    ensures forall p :: p in prods && GeneratedNonTerminals(p) <= Patterns(prods) - r ==> p.pattern !in r
    ensures r <= GrammarCheck.UnterminatedInCnf(prods)
    ensures forall c :: Completed(prods, c) <= c ==> Patterns(prods) - c <= r
  {
    var productive := Productive(prods);
    forall c | Completed(prods, c) <= c
      ensures Patterns(prods) - c <= Patterns(prods) - productive
    {
      ProductiveIsLeast(prods, c);
    }
    forall p | p in prods && IsFinal(p)
      ensures p.pattern in productive
    {
      FinalIffGeneratesNothing(p);
      assert p.pattern in Completed(prods, productive);
    }
    Patterns(prods) - productive
  }

  /** `A -> A` alone: `A` is unterminated. */
  lemma SelfLoopIsUnterminated(a: NonTerminal)
    ensures UnterminatedNonTerminals([Production(a, [NT(a)])]) == {a}
  {
    var prods := [Production(a, [NT(a)])];
    assert GeneratedNonTerminals(prods[0]) == {a};
    assert Completed(prods, {}) == {};
    ProductiveIsLeast(prods, {});
    assert Patterns(prods) == {a};
  }

  /** The grammar `S -> A B, A -> "x", B -> "y"`. */
  function TwoTerminalGrammar(s: NonTerminal, a: NonTerminal, b: NonTerminal, x: string, y: string): seq<Production> {
    [Production(s, [NT(a), NT(b)]), Production(a, [T(x)]), Production(b, [T(y)])]
  }

  /** The one-step check reports `S` in `S -> A B, A -> "x", B -> "y"` ... */
  lemma OneStepReportsProductiveStart(s: NonTerminal, a: NonTerminal, b: NonTerminal, x: string, y: string)
    requires s != a && s != b
    ensures s in GrammarCheck.UnterminatedInCnf(TwoTerminalGrammar(s, a, b, x, y))
  {
    var prods := TwoTerminalGrammar(s, a, b, x, y);
    assert prods[0] in prods;
    assert prods[0].rhs[0] == NT(a);
    forall q | q in prods && q.pattern == s
      ensures !IsFinal(q)
    {
      var i :| 0 <= i < 3 && prods[i] == q;
    }
  }

  /** ... although `S` derives "xy": the fixpoint does not report it. */
  lemma FixpointDoesNotReportProductiveStart(s: NonTerminal, a: NonTerminal, b: NonTerminal, x: string, y: string)
    ensures s !in UnterminatedNonTerminals(TwoTerminalGrammar(s, a, b, x, y))
  {
    var prods := TwoTerminalGrammar(s, a, b, x, y);
    var productive := Productive(prods);
    assert a in productive by {
      FinalIffGeneratesNothing(prods[1]);
      assert prods[1] in prods;
      assert a in Completed(prods, productive);
    }
    assert b in productive by {
      FinalIffGeneratesNothing(prods[2]);
      assert prods[2] in prods;
      assert b in Completed(prods, productive);
    }
    assert s in productive by {
      assert GeneratedNonTerminals(prods[0]) <= {a, b};
      assert prods[0] in prods;
      assert s in Completed(prods, productive);
    }
  }
}
